=== FILE: README.md ===
# helm-template-demo: the post-render manifest pipeline in Dafny

The program renders a Helm chart in dry-run mode and post-processes what the
renderer returns. This project models that post-processing step of `main.go`,
as pure functions over strings and sequences, and proves its properties.

- **Hook filter** (`Hooks`): a hook is a test hook when one of its event tags
  is `test`. The hooks are kept in their original order. Test hooks are
  dropped only when `skipTests` is set.
- **Manifest assembly** (`Assembly`): the blob is the release manifest with
  surrounding whitespace trimmed (Go's `strings.TrimSpace`), then a newline.
  Unless hooks are disabled, each kept hook then adds the record
  `---\n# Source: <path>\n<manifest>\n`.
- **Source header extraction** (`SourceHeader`): the in-chart name of a
  document is group 1 of the first match of `# Source: [^/]+/(.+)`. The
  expression is modelled with Go's flags. `[^/]` also matches a newline;
  `.` matches anything except a newline. The leftmost match wins. The chart
  segment therefore ends at the first `/`, and the name runs to the end of
  that line. The chart segment may itself contain a newline, exactly as the
  expression allows. `HeaderAt` is a declarative reading of one match, and
  `SourceNameSpec` proves that the scanner returns exactly the leftmost one.
- **Selector resolution and emission** (`Selection`): each selector first gets
  its platform separators turned into `/` (`filepath.ToSlash`). It is then
  glob-matched against the in-chart name of every document that has a
  header. Before the comparison the name is split on `/` and joined again;
  `Text.JoinSplit` proves this changes nothing. Matches are collected
  selector-major and document-minor, duplicates kept. The first selector that
  matches nothing aborts: nothing is written. Otherwise each match is written
  as `---\n<doc>\n`. Without selectors the blob is written verbatim.
- **Glob** (`Glob`): `filepath.Match` restricted to literals, `*` and `?`.
  Neither wildcard matches the platform separator.
- **Pipeline** (`Pipeline`): `PostRender` runs the steps as `main` does, and
  `Render` is its functional statement.

Inputs the program does not compute itself are parameters:

- The split documents: a sequence of strings in the order of their sorted
  split keys.
- The platform separator.
- The options `skipTests` and `disableHooks`.
- The selector list.

In `main.go`, `skipTests` and `showFiles` are package variables that no flag
sets, and `DisableHooks` is the constant `false`. So as written, the
selection branch and the test-hook skipping cannot be reached from the
command line. The model covers them for all values.

## Model

| member | source | states |
|---|---|---|
| Hooks.HasTestEvent | main.go:197-202 | scanning the event tags in order finds the test tag exactly when some tag equals `test` |
| Hooks.IsTestHook | main.go:196-203 | a test hook always has at least one event tag; `IsTestHookSpec` pins it down as "`test` is among the tags" |
| Hooks.IsTestHookSpec | main.go:196-203 | a hook is a test hook iff `test` is among its events; a hook with no events never is |
| Hooks.Kept | main.go:134-139 | the kept hooks are never more than the hooks; `KeptSpec` pins them down as all hooks without skipTests and exactly the non-test hooks with it, in order and with their multiplicities |
| Hooks.KeptSpec | main.go:134-139 | without skipTests every hook is kept unchanged; with it, exactly the non-test hooks are kept, each as often as it occurs, as a subsequence of the original order |
| Hooks.KeptAppend | main.go:134-139 | each hook is decided on its own, so the kept hooks of a concatenation are the concatenation of the kept hooks |
| Hooks.KeptIdempotent | main.go:135-137 | filtering the kept hooks again drops nothing more |
| Seqs.Filter | main.go:134-139 | the filtered list holds exactly the elements satisfying the predicate and is a subsequence of the input |
| Seqs.FilterCounts | main.go:134-139 | every kept value occurs as often as in the input, every dropped value not at all |
| Text.TrimSpace | main.go:132 | the trimmed manifest is an infix of the manifest with only whitespace cut from either end, and it neither starts nor ends with whitespace |
| Text.TrimSpaceIdempotent | main.go:132 | trimming a trimmed manifest changes nothing |
| Assembly.Assemble | main.go:131-140 | the assembly loop yields the trimmed manifest and a newline, followed (when hooks are enabled) by the record of every kept hook in order |
| Assembly.Blob | main.go:131-140 | the assembled text, with no contract of its own: `Assemble`, `BlobLayout` and `AppendHook` fix it as the trimmed body followed by the records of the kept hooks, and `DisabledHooksLeaveBody` as the body alone when hooks are disabled |
| Assembly.DisabledHooksLeaveBody | main.go:132-133 | with hooks disabled the blob is the trimmed manifest and a newline, whatever the hooks are |
| Assembly.AppendHook | main.go:134-139 | one more hook adds exactly `---\n# Source: <path>\n<manifest>\n` after everything before it when kept, and nothing when dropped |
| Assembly.BlobLayout | main.go:132-139 | the blob starts with the body and the k-th kept hook's record lies right after the records of the earlier kept hooks |
| Assembly.HookRecordSourceName | main.go:138 | a hook record read back by the header expression yields the hook path without its chart segment |
| SourceHeader.SourceNameSpec | main.go:154-166 | extraction yields a name exactly when the leftmost match of `# Source: [^/]+/(.+)` captures it, and nothing exactly when the expression matches nowhere |
| SourceHeader.SourceName | main.go:154-166 | the extracted in-chart name (group 1 of the first match) is never empty and never spans a line, since `(.+)` stops at a newline; `SourceNameSpec` pins it to the leftmost match |
| SourceHeader.SourceNameOfHeaderLine | main.go:154 | a document opening with `# Source: c/rest` (c non-empty without `/`, rest non-empty to the end of the line) yields `rest` |
| Text.JoinSplit | main.go:169-172 | splitting a name on `/` and joining with `/` gives the same name back |
| Text.SplitJoin | main.go:169 | splitting the join of `/`-free pieces gives the pieces back |
| Text.Split | main.go:169 | `strings.Split` on `/` always yields at least one piece, and no piece contains the separator; `JoinSplit` adds that the pieces joined again give the name back |
| Text.Join | main.go:172 | `strings.Join` with `/` puts the separator right after the first piece whenever more pieces follow; `JoinSplit` makes it the inverse of `Split` |
| Text.ToSlashNormalizes | main.go:159 | selector normalisation replaces exactly the platform separators by `/`, keeps the length, leaves none behind and is idempotent |
| Text.ToSlash | main.go:159 | the converted selector has the selector's length; `ToSlashNormalizes` says exactly the platform separators become `/` |
| Glob.LiteralMatchesOnlyItself | main.go:176 | a selector without wildcards matches only the equal path |
| Glob.Match | main.go:176 | without `*` each pattern character consumes exactly one name character, so a matched name is as long as the pattern |
| Glob.MatchKeepsSeparators | main.go:176 | wildcards never match a separator: a matched path has as many separators as the pattern |
| Glob.StarMatchesOneSegment | main.go:176 | a lone `*` matches exactly the paths without a separator |
| Glob.StarMatchesFileInDirectory | main.go:176 | `<dir>*<ext>` matches every separator-free file name in that directory with that extension |
| Glob.StarStaysInDirectory | main.go:176 | `<dir>*<ext>` matches nothing in a sub-directory |
| Glob.StarInDirectory | main.go:176 | for a literal directory and extension, `<dir>*<ext>` matches exactly the names `<dir><file><ext>` whose file part has no separator |
| Selection.SelectsSpec | main.go:162-176 | a document is selected iff it has a source header and its extracted name matches the selector |
| Selection.Selects | main.go:162-176 | the per-document test of the inner loop, characterised by `SelectsSpec`: selected iff the document has a source header and its name matches the selector |
| Selection.LiteralSelectorSelectsEqualName | main.go:174-179 | a wildcard-free selector selects exactly the documents whose in-chart name equals it |
| Selection.MatchSelector | main.go:157-181 | the inner loop collects the selected documents in document order and is missing iff it collected none |
| Selection.ResolveFound | main.go:156-186 | resolution succeeds iff every selector matches something, and then yields the matches of all selectors, selector-major, duplicates kept |
| Selection.Resolve | main.go:156-186 | a failed resolution names a selector that matched no document; a successful one collects at least one document per selector |
| Selection.ResolveMissing | main.go:156-185 | a failed resolution names the normalised first selector that matched nothing, all earlier ones having matched |
| Selection.ResolveFailFast | main.go:182-185 | once a selector is missing, selectors after it do not change the outcome |
| Selection.ResolveAppend | main.go:156-186 | one more selector keeps a failure and otherwise fails on the new selector or appends its matches |
| Selection.HeaderlessNeverSelected | main.go:162-165 | a document without a source header is never selected and never in the output |
| Selection.ResolveIgnoresHeaderless | main.go:162-165 | removing the header-less documents beforehand changes no selection outcome |
| Selection.AllMatchesSelected | main.go:160-181 | every collected document comes from the input and is selected by one of the selectors |
| Selection.WriteFramed | main.go:187-189 | the write loop emits `---\n<doc>\n` for each match, in order |
| Selection.ShowOnly | main.go:144-189 | the selection branch writes the framed matches, or nothing and reports the first selector that matched nothing |
| Selection.Selected | main.go:144-189 | a not-found arises only from a non-empty selector list and names a selector that matches no document; `ResolveFound` and `ResolveMissing` give the written text and the first missing selector |
| Selection.Emit | main.go:144-191 | without selectors the blob is written verbatim; otherwise the selection decides, as `RenderSpec` states |
| Pipeline.PostRender | main.go:130-192 | after the release has been printed, the post-render step writes exactly what Render specifies: nothing more without a release, the blob without selectors, the selection otherwise |
| Pipeline.Render | main.go:130-192 | without a release nothing more is written, and a not-found needs a release and at least one selector; `RenderSpec` gives the written text |
| Pipeline.RenderSpec | main.go:144-191 | without selectors the blob is written unchanged; with selectors, the framed matches are written when every selector matches and a not-found results otherwise, naming the first selector that matched nothing |
| Pipeline.SkippedTestHookScenario | main.go:133-139 | a release whose only hook is a test hook, with skipTests set, assembles to its trimmed manifest alone |
| Pipeline.SkippedTestHookNotSelectable | main.go:133-185 | with skipTests, for every document list cut from the blob (each document a substring of it), selecting the test hook's template is a not-found naming it |
| Pipeline.TestHookSelectableWithoutSkip | main.go:133-189 | without skipTests the test hook's document (its record without the `---` line and the final newline) is a substring of the blob, and selecting the hook's template from it writes exactly the hook's record |
| Pipeline.MissingFileScenario | main.go:182-185 | selecting a template no document has is a not-found naming it |
| Pipeline.StarSelectorScenario | main.go:176-188 | `templates/*.yaml` selects the top-level template and skips the one in a sub-directory |

## Left out

- Flag parsing, kubeconfig loading and the client getter (main.go:60-74): process and environment I/O.
- Installer construction, chart fetch, values and rendering (main.go:76-124): foreign library calls and network access. A release, or its absence, is an input.
- `fmt.Println(rel)` (main.go:125): it writes the release, or `<nil>` when there is none, to standard output ahead of everything `Render` describes. That text is not modelled; `Render` is what the step writes after it.
- The `klog` error line (main.go:183) goes to the error log, not to standard output. A not-found carries the offending selector instead.
- `releaseutil.SplitManifests` and `BySplitManifestsOrder` (main.go:147-152): their code is not part of this model. Their combined result is the document sequence given to the selection.
- The link between the blob and the documents (`Pipeline.SplitOf`) only requires the documents to be substrings of the blob. The exact cut at `---` lines, the trimming and the key order are not modelled, so the scenarios quantify over every such document list.
- `filepath.Match` character classes, backslash escapes and `ErrBadPattern` (main.go:176): in the model `[`, `]` and `\` are ordinary characters. `Glob.Match` states the documented meaning of `*` and `?`, not Go's chunk-scanning algorithm.
- Glob.MatchKeepsSeparators: stated only for separators other than `*` and `?`. With such a separator the wildcards themselves would count as separators.
- `writeToFile`, `createOrOpenFile` and `ensureDirectoryForFile` (main.go:210-250): filesystem I/O, never called from `main`.
- Go strings are UTF-8 bytes; the model works on Unicode code points. Invalid UTF-8 and its byte-level matching are not modelled.
- Glob.Match: the wildcards consume whole code points, while Go's `filepath.Match` advances its star loop one byte at a time, so a `?` can consume a single UTF-8 continuation byte. Go matches `*??` against `€` (three bytes); `Glob.Match` does not. This differs from Go even on valid UTF-8 names.

=== FILE: assembly.dfy ===
/**
 Assembly of the manifest blob from a rendered release (main.go, the buffer
 filled before any selection): the trimmed release manifest and a newline,
 then, unless hooks are disabled, one framed record per kept hook.
 */
module Assembly {
  import Seqs
  import Text
  import opened Optional
  import opened Hooks
  import SourceHeader

  /** What the renderer hands back: the release manifest and its hooks, in order. */
  datatype Release = Release(manifest: string, hooks: seq<Hook>)

  /** The text one hook contributes: a document separator, its source header, its manifest. */
  function HookRecord(h: Hook): (record: string)
  {
    "---\n" + SourceHeader.SourcePrefix + h.path + "\n" + h.manifest + "\n"
  }

  /** The trimmed release manifest and its terminating newline. */
  function Body(rel: Release): (body: string)
  {
    Text.TrimSpace(rel.manifest) + "\n"
  }

  /** The records of the given hooks, in order. */
  function Records(hooks: seq<Hook>): (records: string)
  {
    Seqs.ConcatMap(HookRecord, hooks)
  }

  /** The assembled blob, written as the body followed by the records of the kept hooks. */
  function Blob(rel: Release, disableHooks: bool, skipTests: bool): (blob: string)
  {
    Body(rel) + if disableHooks then "" else Records(Kept(rel.hooks, skipTests))
  }

  /** The assembly loop: one pass over the hooks, skipping test hooks when asked. */
  method Assemble(rel: Release, disableHooks: bool, skipTests: bool) returns (blob: string)
    ensures blob == Blob(rel, disableHooks, skipTests)
  {
    blob := Text.TrimSpace(rel.manifest) + "\n";
    if !disableHooks {
      assert rel.hooks[..0] == [];
      for i := 0 to |rel.hooks|
        invariant blob == Body(rel) + Records(Kept(rel.hooks[..i], skipTests))
      {
        var m := rel.hooks[i];
        AssembleStep(rel, i, skipTests);
        if skipTests && IsTestHook(m) {
          continue;
        }
        blob := blob + HookRecord(m);
      }
      assert rel.hooks[..|rel.hooks|] == rel.hooks;
    }
  }

  /** One iteration of the assembly loop, stated on the blob of the hooks seen so far. */
  lemma AssembleStep(rel: Release, i: nat, skipTests: bool)
    requires i < |rel.hooks|
    ensures Body(rel) + Records(Kept(rel.hooks[..i + 1], skipTests))
         == Body(rel) + Records(Kept(rel.hooks[..i], skipTests))
            + if skipTests && IsTestHook(rel.hooks[i]) then "" else HookRecord(rel.hooks[i])
  {
    assert rel.hooks[..i + 1] == rel.hooks[..i] + [rel.hooks[i]];
    AppendHook(Release(rel.manifest, rel.hooks[..i]), rel.hooks[i], skipTests);
  }

  /** With hooks disabled the blob is the trimmed manifest and a newline, whatever the hooks are. */
  lemma DisabledHooksLeaveBody(rel: Release, hooks: seq<Hook>, skipTests: bool)
    ensures Blob(Release(rel.manifest, hooks), true, skipTests) == Text.TrimSpace(rel.manifest) + "\n"
  {
  }

  /** A character other than newline that the release manifest lacks is absent from the body. */
  lemma BodyLacksChar(rel: Release, c: char)
    requires c !in rel.manifest && c != '\n'
    ensures c !in Body(rel)
  {
    var t := Text.TrimSpace(rel.manifest);
    var i, j :| 0 <= i <= j <= |rel.manifest| && t == rel.manifest[i..j];
    forall k | 0 <= k < |t| ensures t[k] != c {
      assert t[k] == rel.manifest[i + k];
    }
  }

  /**
   One more hook extends the blob by exactly its record when it is kept and
   leaves the blob unchanged when it is dropped.
   */
  lemma AppendHook(rel: Release, h: Hook, skipTests: bool)
    ensures Blob(Release(rel.manifest, rel.hooks + [h]), false, skipTests)
         == Blob(rel, false, skipTests) + if skipTests && IsTestHook(h) then "" else HookRecord(h)
  {
    KeptAppend(rel.hooks, [h], skipTests);
    var kept := Kept(rel.hooks, skipTests);
    var one := Kept([h], skipTests);
    assert one == if skipTests && IsTestHook(h) then [] else [h] by {
      assert [h][1..] == [];
    }
    Seqs.ConcatMapAppend(HookRecord, kept, one);
  }

  /**
   With hooks enabled, the blob starts with the body, and the record of the
   k-th kept hook sits right after the records of the kept hooks before it.
   */
  lemma BlobLayout(rel: Release, skipTests: bool, k: nat)
    requires k < |Kept(rel.hooks, skipTests)|
    ensures var kept := Kept(rel.hooks, skipTests);
            var blob := Blob(rel, false, skipTests);
            var o := |Body(rel)| + |Records(kept[..k])|;
            && blob[..|Body(rel)|] == Body(rel)
            && o + |HookRecord(kept[k])| <= |blob|
            && blob[o..o + |HookRecord(kept[k])|] == HookRecord(kept[k])
  {
    var kept := Kept(rel.hooks, skipTests);
    Seqs.ConcatMapPiece(HookRecord, kept, k);
    var o := |Records(kept[..k])|;
    var n := |HookRecord(kept[k])|;
    var blob := Blob(rel, false, skipTests);
    assert blob[|Body(rel)| + o..|Body(rel)| + o + n] == Records(kept)[o..o + n];
  }

  /**
   A hook record read back by the header extraction yields the hook's path
   without its chart segment, when the path is `<chart>/<name>` on one line.
   */
  lemma HookRecordSourceName(h: Hook, chart: string, name: string)
    requires h.path == chart + "/" + name
    requires |chart| > 0 && '/' !in chart
    requires |name| > 0 && '\n' !in name
    ensures SourceHeader.SourceName(HookRecord(h)) == Some(name)
  {
    var doc := HookRecord(h);
    var tail := "\n" + h.manifest + "\n";
    var header := SourceHeader.SourcePrefix + chart + "/" + name + tail;
    assert doc == "---\n" + header;
    var s := 4 + |SourceHeader.SourcePrefix|;
    var q := s + |chart|;
    assert doc[4..s] == SourceHeader.SourcePrefix;
    assert doc[s..q] == chart;
    assert doc[q + 1..q + 1 + |name|] == name;
    assert SourceHeader.HeaderAt(doc, 4, chart, name);
    forall p': nat, c, n | p' < 4 ensures !SourceHeader.HeaderAt(doc, p', c, n) {
      assert doc[p'] in "-\n";
      assert doc[p'..p' + |SourceHeader.SourcePrefix|][0] == doc[p'];
    }
    assert SourceHeader.NoHeaderBefore(doc, 4);
    SourceHeader.SourceNameSpec(doc, name);
  }
}

=== FILE: glob.dfy ===
/**
 The shell-pattern match the selector applies to document paths (Go's
 filepath.Match), restricted to literals, `*` and `?`. Neither wildcard ever
 matches the platform separator `sep`; every other pattern character matches
 only itself.
 */
module Glob {

  /** The whole of `name` matches the whole of `pattern`. */
  predicate Match(sep: char, pattern: string, name: string)
    ensures Match(sep, pattern, name) && '*' !in pattern ==> |name| == |pattern|
    decreases |pattern| + |name|
  {
    if pattern == [] then name == []
    else if pattern[0] == '*' then
      || Match(sep, pattern[1..], name)
      || (name != [] && name[0] != sep && Match(sep, pattern, name[1..]))
    else if name == [] then false
    else if pattern[0] == '?' then name[0] != sep && Match(sep, pattern[1..], name[1..])
    else pattern[0] == name[0] && Match(sep, pattern[1..], name[1..])
  }

  /** The pattern has no wildcard: every character stands for itself. */
  predicate IsLiteral(pattern: string)
  {
    '*' !in pattern && '?' !in pattern
  }

  /** A pattern without wildcards matches exactly the equal name. */
  lemma {:induction false} LiteralMatchesOnlyItself(sep: char, pattern: string, name: string)
    requires IsLiteral(pattern)
    ensures Match(sep, pattern, name) <==> name == pattern
    decreases |pattern|
  {
    if pattern != [] && name != [] {
      assert pattern[1..] == [] || pattern[1..][0] == pattern[1];
      LiteralMatchesOnlyItself(sep, pattern[1..], name[1..]);
      if name == pattern {
        assert name[1..] == pattern[1..];
      }
    }
  }

  /** The number of separators in `s`. */
  function Separators(sep: char, s: string): (n: nat)
    ensures n <= |s|
  {
    if s == [] then 0 else (if s[0] == sep then 1 else 0) + Separators(sep, s[1..])
  }

  /** Wildcards never cross a separator: a name has as many separators as any pattern it matches. */
  lemma {:induction false} MatchKeepsSeparators(sep: char, pattern: string, name: string)
    requires sep != '*' && sep != '?'
    requires Match(sep, pattern, name)
    ensures Separators(sep, name) == Separators(sep, pattern)
    decreases |pattern| + |name|
  {
    if pattern == [] {
    } else if pattern[0] == '*' {
      if Match(sep, pattern[1..], name) {
        MatchKeepsSeparators(sep, pattern[1..], name);
      } else {
        MatchKeepsSeparators(sep, pattern, name[1..]);
      }
    } else {
      MatchKeepsSeparators(sep, pattern[1..], name[1..]);
    }
  }

  /** A lone `*` matches exactly the names without a separator. */
  lemma {:induction false} StarMatchesOneSegment(sep: char, name: string)
    ensures Match(sep, "*", name) <==> sep !in name
    decreases |name|
  {
    if name != [] {
      StarMatchesOneSegment(sep, name[1..]);
      assert "*"[1..] == [];
      assert sep in name <==> name[0] == sep || sep in name[1..];
    }
  }

  /** A literal prefix shared by pattern and name can be matched off. */
  lemma {:induction false} LiteralPrefix(sep: char, lit: string, pattern: string, name: string)
    requires IsLiteral(lit)
    ensures Match(sep, lit + pattern, lit + name) <==> Match(sep, pattern, name)
    decreases |lit|
  {
    if lit != [] {
      assert (lit + pattern)[0] == lit[0] && (lit + name)[0] == lit[0];
      assert (lit + pattern)[1..] == lit[1..] + pattern;
      assert (lit + name)[1..] == lit[1..] + name;
      assert lit[1..] == [] || lit[1..][0] == lit[1];
      LiteralPrefix(sep, lit[1..], pattern, name);
    } else {
      assert lit + pattern == pattern && lit + name == name;
    }
  }

  /** A `*` absorbs any word without a separator in front of what the rest of the pattern matches. */
  lemma {:induction false} StarSkipsWord(sep: char, word: string, pattern: string, name: string)
    requires sep !in word
    requires Match(sep, pattern, name)
    ensures Match(sep, "*" + pattern, word + name)
    decreases |word|
  {
    var star := "*" + pattern;
    assert star[0] == '*' && star[1..] == pattern;
    if word != [] {
      StarSkipsWord(sep, word[1..], pattern, name);
      assert (word + name)[1..] == word[1..] + name;
      assert (word + name)[0] == word[0];
    } else {
      assert word + name == name;
    }
  }

  /** A pattern without a separator only matches names without one. */
  lemma SeparatorFreePattern(sep: char, pattern: string, name: string)
    requires sep != '*' && sep != '?'
    requires sep !in pattern
    requires Match(sep, pattern, name)
    ensures sep !in name
  {
    MatchKeepsSeparators(sep, pattern, name);
    NoSeparatorsCounted(sep, pattern);
    NoSeparatorsCounted(sep, name);
  }

  lemma {:induction false} NoSeparatorsCounted(sep: char, s: string)
    ensures Separators(sep, s) == 0 <==> sep !in s
  {
    if s != [] {
      NoSeparatorsCounted(sep, s[1..]);
      assert s == [s[0]] + s[1..];
    }
  }

  /** `<dir>*<ext>` matches every file of the directory with that extension. */
  lemma StarMatchesFileInDirectory(sep: char, dir: string, file: string, ext: string)
    requires IsLiteral(dir) && IsLiteral(ext)
    requires sep !in file
    ensures Match(sep, dir + "*" + ext, dir + file + ext)
  {
    LiteralMatchesOnlyItself(sep, ext, ext);
    StarSkipsWord(sep, file, ext, ext);
    LiteralPrefix(sep, dir, "*" + ext, file + ext);
    assert dir + "*" + ext == dir + ("*" + ext);
    assert dir + file + ext == dir + (file + ext);
  }

  /** A pattern that opens with a literal only matches names that open with the same literal. */
  lemma {:induction false} LiteralPrefixOfName(sep: char, lit: string, pattern: string, name: string)
    requires IsLiteral(lit)
    requires Match(sep, lit + pattern, name)
    ensures |lit| <= |name| && name[..|lit|] == lit
    decreases |lit|
  {
    if lit != [] {
      var lp := lit + pattern;
      assert lp[0] == lit[0] && lp[1..] == lit[1..] + pattern;
      assert lit[0] in lit;
      assert lit[1..] == [] || lit[1..][0] == lit[1];
      LiteralPrefixOfName(sep, lit[1..], pattern, name[1..]);
      assert name == [name[0]] + name[1..];
    }
  }

  /** `*` followed by a literal matches exactly a separator-free word followed by that literal. */
  lemma {:induction false} StarThenLiteral(sep: char, ext: string, t: string)
    requires IsLiteral(ext)
    ensures Match(sep, "*" + ext, t) <==> exists word :: sep !in word && t == word + ext
    decreases |t|
  {
    var star := "*" + ext;
    assert star[0] == '*' && star[1..] == ext;
    if Match(sep, star, t) {
      if Match(sep, ext, t) {
        LiteralMatchesOnlyItself(sep, ext, t);
        assert t == [] + ext;
      } else {
        StarThenLiteral(sep, ext, t[1..]);
        var word :| sep !in word && t[1..] == word + ext;
        assert t == ([t[0]] + word) + ext;
        assert sep !in [t[0]] + word;
      }
    }
    if exists word :: sep !in word && t == word + ext {
      var word :| sep !in word && t == word + ext;
      LiteralMatchesOnlyItself(sep, ext, ext);
      StarSkipsWord(sep, word, ext, ext);
    }
  }

  /**
   `<dir>*<ext>` matches exactly the names made of that directory, a file name
   without a separator, and that extension.
   */
  lemma StarInDirectory(sep: char, dir: string, ext: string, name: string)
    requires IsLiteral(dir) && IsLiteral(ext)
    ensures Match(sep, dir + "*" + ext, name) <==> exists file :: sep !in file && name == dir + file + ext
  {
    assert dir + "*" + ext == dir + ("*" + ext);
    if Match(sep, dir + "*" + ext, name) {
      LiteralPrefixOfName(sep, dir, "*" + ext, name);
      var rest := name[|dir|..];
      assert name == dir + rest;
      LiteralPrefix(sep, dir, "*" + ext, rest);
      StarThenLiteral(sep, ext, rest);
      var file :| sep !in file && rest == file + ext;
      assert name == dir + file + ext;
    }
    if exists file :: sep !in file && name == dir + file + ext {
      var file :| sep !in file && name == dir + file + ext;
      StarMatchesFileInDirectory(sep, dir, file, ext);
    }
  }

  /** `<dir>*<ext>` matches nothing in a sub-directory of the directory. */
  lemma StarStaysInDirectory(sep: char, dir: string, sub: string, ext: string)
    requires sep != '*' && sep != '?'
    requires IsLiteral(dir) && sep !in ext
    requires sep in sub
    ensures !Match(sep, dir + "*" + ext, dir + sub + ext)
  {
    LiteralPrefix(sep, dir, "*" + ext, sub + ext);
    assert dir + "*" + ext == dir + ("*" + ext);
    assert dir + sub + ext == dir + (sub + ext);
    assert sep !in "*" + ext;
    if Match(sep, "*" + ext, sub + ext) {
      SeparatorFreePattern(sep, "*" + ext, sub + ext);
    }
  }
}

=== FILE: hooks.dfy ===
/**
 Lifecycle hooks of a rendered release and the test-hook filter applied before
 they are appended to the manifest blob (main.go, isTestHook and the loop over
 rel.Hooks).
 */
module Hooks {
  import Seqs

  /** The event tag Helm gives to test hooks (release.HookTest). */
  const HookTest: string := "test"

  /**
   A rendered hook: its template path, its manifest text and its lifecycle
   event tags, in the order the renderer listed them.
   */
  datatype Hook = Hook(path: string, manifest: string, events: seq<string>)

  /** Scans the tags front to back, stopping at the first test tag. */
  function HasTestEvent(events: seq<string>): (r: bool)
    ensures r <==> exists i :: 0 <= i < |events| && events[i] == HookTest
  {
    if events == [] then false
    else if events[0] == HookTest then true
    else HasTestEvent(events[1..])
  }

  /** A hook is a test hook when one of its event tags is the test tag. */
  predicate IsTestHook(h: Hook)
    ensures IsTestHook(h) ==> h.events != []
  {
    HasTestEvent(h.events)
  }

  /** The hooks that are appended to the blob: all of them, or the non-test ones when skipping tests. */
  function Kept(hooks: seq<Hook>, skipTests: bool): (kept: seq<Hook>)
    ensures |kept| <= |hooks|
  {
    Seqs.Filter((h: Hook) => !(skipTests && IsTestHook(h)), hooks)
  }

  /** isTestHook is exactly "some tag equals the test tag"; a hook without tags is never a test hook. */
  lemma IsTestHookSpec(h: Hook)
    ensures IsTestHook(h) <==> HookTest in h.events
    ensures h.events == [] ==> !IsTestHook(h)
  {
  }

  /**
   Without skipTests every hook is kept; with it exactly the non-test hooks are
   kept, each as often as it occurs, in their original relative order.
   */
  lemma KeptSpec(hooks: seq<Hook>, skipTests: bool)
    ensures !skipTests ==> Kept(hooks, skipTests) == hooks
    ensures forall h :: h in Kept(hooks, skipTests) <==> h in hooks && !(skipTests && IsTestHook(h))
    ensures forall h :: multiset(Kept(hooks, skipTests))[h]
                        == if skipTests && IsTestHook(h) then 0 else multiset(hooks)[h]
    ensures Seqs.IsSubsequence(Kept(hooks, skipTests), hooks)
  {
    Seqs.FilterCounts((h: Hook) => !(skipTests && IsTestHook(h)), hooks);
    if !skipTests {
      Seqs.FilterKeepsAll((h: Hook) => !(skipTests && IsTestHook(h)), hooks);
    }
  }

  /** The filter decides each hook on its own: kept hooks of a concatenation concatenate. */
  lemma KeptAppend(a: seq<Hook>, b: seq<Hook>, skipTests: bool)
    ensures Kept(a + b, skipTests) == Kept(a, skipTests) + Kept(b, skipTests)
  {
    Seqs.FilterAppend((h: Hook) => !(skipTests && IsTestHook(h)), a, b);
  }

  /** Filtering the kept hooks again removes nothing more. */
  lemma KeptIdempotent(hooks: seq<Hook>, skipTests: bool)
    ensures Kept(Kept(hooks, skipTests), skipTests) == Kept(hooks, skipTests)
  {
    Seqs.FilterIdempotent((h: Hook) => !(skipTests && IsTestHook(h)), hooks);
  }
}

=== FILE: optional.dfy ===
/** An optional value: `None` stands for Go's nil or "no match". */
module Optional {
  datatype Option<+T> = None | Some(value: T)
}

=== FILE: pipeline.dfy ===
/**
 The post-render step of main.go end to end: when the installer returned a
 release, assemble the blob, then either write it out verbatim or, when
 files to show are given, write only the selected documents.

 The flags that steer it are explicit options here: in main.go skipTests and
 the list of files to show are package variables no flag sets, and hooks are
 never disabled. The split and sorted documents are an input standing for
 the blob's split, ordered the way the release utilities order their keys.
 */
module Pipeline {
  import Text
  import Glob
  import opened Optional
  import opened Hooks
  import opened Assembly
  import SourceHeader
  import opened Selection

  datatype Options = Options(disableHooks: bool, skipTests: bool)

  /** Unix-like hosts, where the path separator is already '/'. */
  const Unix := Platform('/')

  /**
   What the post-render step writes after the release itself has been
   printed: nothing more without a release, otherwise the blob or the
   selection.
   */
  function Render(rel: Option<Release>, opts: Options, docs: seq<string>, showFiles: seq<string>, pl: Platform): (e: Emission)
    ensures rel.None? ==> e == Written("")
    ensures e.NotFound? ==> rel.Some? && showFiles != []
  {
    match rel
    case None => Written("")
    case Some(r) => Emit(pl, Blob(r, opts.disableHooks, opts.skipTests), docs, showFiles)
  }

  /** The post-render step as main.go runs it: assemble, then either print the blob or select. */
  method PostRender(rel: Option<Release>, opts: Options, docs: seq<string>, showFiles: seq<string>, pl: Platform)
    returns (e: Emission)
    ensures e == Render(rel, opts, docs, showFiles, pl)
  {
    if rel.None? {
      return Written("");
    }
    var manifests := Assemble(rel.value, opts.disableHooks, opts.skipTests);
    if |showFiles| > 0 {
      e := ShowOnly(pl, docs, showFiles);
    } else {
      e := Written(manifests);
    }
  }

  /**
   Without selectors the assembled blob is written unchanged; with selectors
   the output is the framed matches in selector-then-document order, or
   nothing and the first selector that matched nothing.
   */
  lemma RenderSpec(r: Release, opts: Options, docs: seq<string>, showFiles: seq<string>, pl: Platform)
    ensures showFiles == [] ==>
              Render(Some(r), opts, docs, showFiles, pl) == Written(Blob(r, opts.disableHooks, opts.skipTests))
    ensures showFiles != [] && AllFoundBefore(pl, docs, showFiles, |showFiles|) ==>
              Render(Some(r), opts, docs, showFiles, pl) == Written(Frame(AllMatches(pl, docs, showFiles)))
    ensures showFiles != [] && !AllFoundBefore(pl, docs, showFiles, |showFiles|) ==>
              Render(Some(r), opts, docs, showFiles, pl).NotFound?
    ensures Render(Some(r), opts, docs, showFiles, pl).NotFound? ==>
              exists i :: 0 <= i < |showFiles|
                          && Render(Some(r), opts, docs, showFiles, pl).pattern == Normalize(pl, showFiles[i])
                          && MatchesFor(pl, docs, Normalize(pl, showFiles[i])) == []
                          && AllFoundBefore(pl, docs, showFiles, i)
  {
    ResolveFound(pl, docs, showFiles);
    if Resolve(pl, docs, showFiles).Missing? {
      ResolveMissing(pl, docs, showFiles);
    }
  }

  /** The namespace manifest with a test hook, rendered with skipTests: the hook leaves no trace in the blob. */
  lemma SkippedTestHookScenario()
    ensures Blob(Release(ScenarioNamespace, [ScenarioTestHook]), false, true) == Text.TrimSpace(ScenarioNamespace) + "\n"
  {
    assert IsTestHook(ScenarioTestHook) by {
      assert ScenarioTestHook.events[0] == HookTest;
    }
    assert Kept([ScenarioTestHook], true) == [];
  }

  /**
   The documents handed to the selection are pieces of the blob: each is a
   substring of it. The release utilities cut the blob at its `---` lines and
   trim the pieces, so whatever they return satisfies this.
   */
  ghost predicate SplitOf(blob: string, docs: seq<string>)
  {
    forall d :: d in docs ==> Text.IsInfix(d, blob)
  }

  /** The test hook's name has a '-'; the release manifest has none. */
  lemma ScenarioDash()
    ensures '-' in ScenarioHookName
    ensures '-' !in ScenarioNamespace
  {
    assert ScenarioHookName[20] == '-';
  }

  /** The skipTests blob of the scenario release has no '-' anywhere. */
  lemma SkippedBlobDashFree()
    ensures '-' !in Blob(Release(ScenarioNamespace, [ScenarioTestHook]), false, true)
  {
    SkippedTestHookScenario();
    ScenarioDash();
    BodyLacksChar(Release(ScenarioNamespace, [ScenarioTestHook]), '-');
  }

  /** No piece of the skipTests blob carries the test hook's name as its source name. */
  lemma SkippedBlobLacksHookName(d: string)
    requires Text.IsInfix(d, Blob(Release(ScenarioNamespace, [ScenarioTestHook]), false, true))
    ensures SourceHeader.SourceName(d) != Some(ScenarioHookName)
  {
    SkippedBlobDashFree();
    ScenarioDash();
    Text.InfixLacksChar(d, Blob(Release(ScenarioNamespace, [ScenarioTestHook]), false, true), '-');
    if SourceHeader.SourceName(d).Some? {
      SourceHeader.SourceNameInfix(d);
      Text.InfixLacksChar(SourceHeader.SourceName(d).value, d, '-');
    }
  }

  /** With skipTests, the hook's template matches no document cut from the blob. */
  lemma SkippedHookMatchesNothing(docs: seq<string>)
    requires SplitOf(Blob(Release(ScenarioNamespace, [ScenarioTestHook]), false, true), docs)
    ensures MatchesFor(Unix, docs, ScenarioHookName) == []
  {
    var f := ScenarioHookName;
    HookNameIsLiteral();
    forall i | 0 <= i < |docs| ensures !Selects(Unix, f, docs[i]) {
      SkippedBlobLacksHookName(docs[i]);
      LiteralSelectorSelectsEqualName(Unix, f, docs[i]);
    }
    Seqs.FilterKeepsNone((d: string) => Selects(Unix, f, d), docs);
  }

  /**
   The same release end to end: with skipTests the test hook's template is in
   no document cut from the blob, so selecting it is a not-found naming it and
   nothing is written.
   */
  lemma SkippedTestHookNotSelectable(docs: seq<string>)
    requires SplitOf(Blob(Release(ScenarioNamespace, [ScenarioTestHook]), false, true), docs)
    ensures Render(Some(Release(ScenarioNamespace, [ScenarioTestHook])), Options(false, true),
                   docs, [ScenarioHookName], Unix)
         == NotFound(ScenarioHookName)
  {
    SkippedHookMatchesNothing(docs);
    assert Resolve(Unix, docs, [ScenarioHookName]) == Missing(ScenarioHookName);
  }

  /** Without skipTests the scenario's blob is the body followed by the test hook's record. */
  lemma UnskippedBlob()
    ensures var rel := Release(ScenarioNamespace, [ScenarioTestHook]);
            Blob(rel, false, false) == Body(rel) + HookRecord(ScenarioTestHook)
  {
    KeptSpec([ScenarioTestHook], false);
  }

  /** A one-selector selection over one document that the selector picks. */
  lemma SelectOnly(pl: Platform, d: string, f: string)
    requires Normalize(pl, f) == f
    requires Selects(pl, f, d)
    ensures Selected(pl, [d], [f]) == Written(FrameDoc(d))
  {
    assert MatchesFor(pl, [d], f) == [d] by {
      assert [d][1..] == [];
    }
    assert Resolve(pl, [d], [f]) == Found([d]) by {
      assert [f][1..] == [];
    }
    assert Frame([d]) == FrameDoc(d);
  }

  /**
   The test hook's document as the split hands it over: its record without the
   leading `---` line and without the trailing newline.
   */
  const ScenarioHookPiece: string :=
    SourceHeader.SourcePrefix + "mychart" + "/" + ScenarioHookName + ("\n" + ScenarioTestHook.manifest)

  /** Framing the hook's document for output restores exactly the hook's record. */
  lemma PieceFrames()
    ensures FrameDoc(ScenarioHookPiece) == HookRecord(ScenarioTestHook)
  {
    assert ScenarioTestHook.path == "mychart" + "/" + ScenarioHookName;
  }

  /** Without skipTests the hook's document is a piece of the blob, right after the body and the `---` line. */
  lemma PieceIsPiece()
    ensures SplitOf(Blob(Release(ScenarioNamespace, [ScenarioTestHook]), false, false), [ScenarioHookPiece])
  {
    var rel := Release(ScenarioNamespace, [ScenarioTestHook]);
    UnskippedBlob();
    PieceFrames();
    var blob := Blob(rel, false, false);
    assert blob == Body(rel) + "---\n" + ScenarioHookPiece + "\n";
    assert Text.InfixAt(ScenarioHookPiece, blob, |Body(rel)| + 4);
  }

  /** The hook's document names the hook's template in its source header. */
  lemma PieceSourceName()
    ensures SourceHeader.SourceName(ScenarioHookPiece) == Some(ScenarioHookName)
  {
    SourceHeader.SourceNameOfHeaderLine("mychart", ScenarioHookName, "\n" + ScenarioTestHook.manifest);
  }

  /** The hook's template name has no wildcard. */
  lemma HookNameIsLiteral()
    ensures Glob.IsLiteral(ScenarioHookName)
  {
    assert '*' !in "tests/test-connection" && '?' !in "tests/test-connection";
  }

  /** The hook's document is selected by the hook's template name. */
  lemma PieceSelected()
    ensures Selects(Unix, ScenarioHookName, ScenarioHookPiece)
  {
    PieceSourceName();
    HookNameIsLiteral();
    LiteralSelectorSelectsEqualName(Unix, ScenarioHookName, ScenarioHookPiece);
  }

  /**
   Without skipTests the test hook's document is a piece of the blob, and
   selecting the hook's template writes exactly the hook's record.
   */
  lemma TestHookSelectableWithoutSkip()
    ensures var rel := Release(ScenarioNamespace, [ScenarioTestHook]);
            && SplitOf(Blob(rel, false, false), [ScenarioHookPiece])
            && Render(Some(rel), Options(false, false), [ScenarioHookPiece], [ScenarioHookName], Unix)
               == Written(HookRecord(ScenarioTestHook))
  {
    PieceIsPiece();
    PieceSelected();
    SelectOnly(Unix, ScenarioHookPiece, ScenarioHookName);
    PieceFrames();
  }

  /** The two documents of the selection scenarios and their in-chart names. */
  lemma ScenarioNames()
    ensures SourceHeader.SourceName(ScenarioNamespace) == Some(ScenarioNamespaceName)
    ensures SourceHeader.SourceName(ScenarioNested) == Some(ScenarioNestedName)
  {
    SourceHeader.SourceNameOfHeaderLine("mychart", ScenarioNamespaceName, "\napiVersion: v1\nkind: Namespace");
    SourceHeader.SourceNameOfHeaderLine("mychart", ScenarioNestedName, "\nkind: ConfigMap");
  }

  /*
   The scenario names are assembled from directory, file and extension so that
   the glob lemmas, stated for `<dir><file><ext>`, apply to them as written;
   the verifier then never has to unfold a match over a long literal.
   */
  const ScenarioNamespaceName: string := "templates/" + "namespace" + ".yaml"
  const ScenarioNestedName: string := "templates/" + "sub/extra" + ".yaml"
  const ScenarioNamespace: string :=
    SourceHeader.SourcePrefix + "mychart" + "/" + ScenarioNamespaceName + "\napiVersion: v1\nkind: Namespace"
  const ScenarioNested: string :=
    SourceHeader.SourcePrefix + "mychart" + "/" + ScenarioNestedName + "\nkind: ConfigMap"

  /** A test hook of the chart, and its in-chart name. */
  const ScenarioHookName: string := "templates/" + "tests/test-connection" + ".yaml"
  const ScenarioTestHook: Hook := Hook("mychart" + "/" + ScenarioHookName, "kind: Pod", [HookTest])

  /** A one-selector selection over two documents neither of which the selector picks. */
  lemma SelectNeither(pl: Platform, a: string, b: string, f: string)
    requires Normalize(pl, f) == f
    requires !Selects(pl, f, a) && !Selects(pl, f, b)
    ensures Selected(pl, [a, b], [f]) == NotFound(f)
  {
    assert MatchesFor(pl, [a, b], f) == [] by {
      assert [a, b][1..] == [b];
      assert [b][1..] == [];
      assert MatchesFor(pl, [b], f) == [];
      assert MatchesFor(pl, [a, b], f) == MatchesFor(pl, [b], f);
    }
  }

  /** A one-selector selection over two documents of which the selector picks the first. */
  lemma SelectFirst(pl: Platform, a: string, b: string, f: string)
    requires Normalize(pl, f) == f
    requires Selects(pl, f, a) && !Selects(pl, f, b)
    ensures Selected(pl, [a, b], [f]) == Written(FrameDoc(a))
  {
    assert MatchesFor(pl, [a, b], f) == [a] by {
      assert [a, b][1..] == [b];
      assert [b][1..] == [];
      assert MatchesFor(pl, [b], f) == [];
      assert MatchesFor(pl, [a, b], f) == [a] + MatchesFor(pl, [b], f);
    }
    assert Resolve(pl, [a, b], [f]) == Found([a]) by {
      assert [f][1..] == [];
    }
  }

  /** Selecting a file no document has is a not-found naming that file, and nothing is written. */
  lemma MissingFileScenario()
    ensures Selected(Unix, [ScenarioNamespace, ScenarioNested], ["templates/hooks/test.yaml"])
         == NotFound("templates/hooks/test.yaml")
  {
    var missing := "templates/hooks/test.yaml";
    ScenarioNames();
    assert Glob.IsLiteral(missing);
    LiteralSelectorSelectsEqualName(Unix, missing, ScenarioNamespace);
    LiteralSelectorSelectsEqualName(Unix, missing, ScenarioNested);
    SelectNeither(Unix, ScenarioNamespace, ScenarioNested, missing);
  }

  /** The selector `templates/` followed by `*.yaml`. */
  const ScenarioStar: string := "templates/" + "*" + ".yaml"

  /** The star selector selects the top-level template. */
  lemma StarSelectsTopLevel()
    ensures Selects(Unix, ScenarioStar, ScenarioNamespace)
  {
    ScenarioNames();
    Glob.StarMatchesFileInDirectory('/', "templates/", "namespace", ".yaml");
    SelectsSpec(Unix, ScenarioStar, ScenarioNamespace);
  }

  /** The star selector does not select the template in a sub-directory. */
  lemma StarSkipsNested()
    ensures !Selects(Unix, ScenarioStar, ScenarioNested)
  {
    ScenarioNames();
    assert "sub/extra"[3] == '/';
    Glob.StarStaysInDirectory('/', "templates/", "sub/extra", ".yaml");
    SelectsSpec(Unix, ScenarioStar, ScenarioNested);
  }

  /** The selector templates/ followed by `*.yaml` picks the top-level template only. */
  lemma StarSelectorScenario()
    ensures Selected(Unix, [ScenarioNamespace, ScenarioNested], [ScenarioStar])
         == Written("---\n" + ScenarioNamespace + "\n")
  {
    StarSelectsTopLevel();
    StarSkipsNested();
    SelectFirst(Unix, ScenarioNamespace, ScenarioNested, ScenarioStar);
  }
}

=== FILE: selection.dfy ===
/**
 Resolution of the user's file selectors against the split documents and the
 emission of the result (main.go, the branch taken when a list of files to
 show is given). The documents arrive already split and in sorted key order.
 Each selector is converted to '/' separators and compared, as a shell
 pattern, with the in-chart name of every document that carries a source
 header; the first selector that matches nothing aborts the whole selection.
 */
module Selection {
  import Seqs
  import Text
  import Glob
  import SourceHeader
  import opened Optional

  /** The host platform: its path separator decides ToSlash and what wildcards may not cross. */
  datatype Platform = Platform(separator: char)

  /** Either every selector matched, with the matches in pattern-then-document order, or the first one that did not. */
  datatype Resolution = Found(docs: seq<string>) | Missing(pattern: string)

  /** What reaches the output stream: the written text, or nothing because a selector was not found. */
  datatype Emission = Written(text: string) | NotFound(pattern: string)

  /** A user's selector with its platform separators turned into '/'. */
  function Normalize(pl: Platform, pattern: string): (f: string)
    ensures |f| == |pattern|
  {
    Text.ToSlash(pattern, pl.separator)
  }

  /**
   The selector matches the document: the document has a source header and
   its in-chart name, split on '/' and joined again with '/', matches.
   */
  predicate Selects(pl: Platform, pattern: string, doc: string)
  {
    match SourceHeader.SourceName(doc)
    case None => false
    case Some(name) => Glob.Match(pl.separator, pattern, Text.Join(Text.Split(name, '/'), '/'))
  }

  /** The documents a selector matches, in document order. */
  function MatchesFor(pl: Platform, docs: seq<string>, pattern: string): (ms: seq<string>)
    ensures |ms| <= |docs|
  {
    Seqs.Filter((d: string) => Selects(pl, pattern, d), docs)
  }

  /** The matches of every selector, one selector after the other, duplicates kept. */
  function AllMatches(pl: Platform, docs: seq<string>, patterns: seq<string>): (ms: seq<string>)
    ensures patterns == [] ==> ms == []
  {
    Seqs.ConcatMap((p: string) => MatchesFor(pl, docs, Normalize(pl, p)), patterns)
  }

  /** No selector before index `i` comes up empty. */
  ghost predicate AllFoundBefore(pl: Platform, docs: seq<string>, patterns: seq<string>, i: nat)
    requires i <= |patterns|
  {
    forall j :: 0 <= j < i ==> MatchesFor(pl, docs, Normalize(pl, patterns[j])) != []
  }

  /** The selectors, taken in order, against the documents; stops at the first one that matches nothing. */
  function Resolve(pl: Platform, docs: seq<string>, patterns: seq<string>): (r: Resolution)
    ensures r.Missing? ==> patterns != [] && MatchesFor(pl, docs, r.pattern) == []
    ensures r.Found? ==> |r.docs| >= |patterns|
  {
    if patterns == [] then Found([])
    else
      var f := Normalize(pl, patterns[0]);
      var m := MatchesFor(pl, docs, f);
      if m == [] then Missing(f)
      else
        match Resolve(pl, docs, patterns[1..])
        case Found(ms) => Found(m + ms)
        case Missing(g) => Missing(g)
  }

  /**
   Resolution succeeds exactly when every selector matches something, and
   then yields the matches of all selectors in order.
   */
  lemma {:induction false} ResolveFound(pl: Platform, docs: seq<string>, patterns: seq<string>)
    ensures Resolve(pl, docs, patterns).Found? <==> AllFoundBefore(pl, docs, patterns, |patterns|)
    ensures Resolve(pl, docs, patterns).Found? ==> Resolve(pl, docs, patterns).docs == AllMatches(pl, docs, patterns)
  {
    if patterns != [] {
      var tail := patterns[1..];
      ResolveFound(pl, docs, tail);
      assert forall j :: 1 <= j < |patterns| ==> patterns[j] == tail[j - 1];
    }
  }

  /**
   A failed resolution names the normalised form of the first selector that
   matches nothing; every selector before it matched something.
   */
  lemma {:induction false} ResolveMissing(pl: Platform, docs: seq<string>, patterns: seq<string>)
    requires Resolve(pl, docs, patterns).Missing?
    ensures exists i :: 0 <= i < |patterns| && Resolve(pl, docs, patterns).pattern == Normalize(pl, patterns[i])
                        && MatchesFor(pl, docs, Normalize(pl, patterns[i])) == []
                        && AllFoundBefore(pl, docs, patterns, i)
  {
    var f := Normalize(pl, patterns[0]);
    if MatchesFor(pl, docs, f) == [] {
      assert AllFoundBefore(pl, docs, patterns, 0);
    } else {
      var tail := patterns[1..];
      ResolveMissing(pl, docs, tail);
      var i :| 0 <= i < |tail| && Resolve(pl, docs, tail).pattern == Normalize(pl, tail[i])
               && MatchesFor(pl, docs, Normalize(pl, tail[i])) == [] && AllFoundBefore(pl, docs, tail, i);
      assert tail[i] == patterns[i + 1];
      assert forall j :: 1 <= j < i + 1 ==> patterns[j] == tail[j - 1];
      assert AllFoundBefore(pl, docs, patterns, i + 1);
    }
  }

  /** The framing of one emitted document. */
  function FrameDoc(doc: string): (framed: string)
  {
    "---\n" + doc + "\n"
  }

  /** The emitted text of a list of documents: each one framed, in order. */
  function Frame(docs: seq<string>): (text: string)
    ensures docs == [] ==> text == ""
  {
    Seqs.ConcatMap(FrameDoc, docs)
  }

  /** The selection branch: the framed matches, or nothing at all when a selector is not found. */
  function Selected(pl: Platform, docs: seq<string>, patterns: seq<string>): (e: Emission)
    ensures e.NotFound? ==> patterns != [] && MatchesFor(pl, docs, e.pattern) == []
  {
    match Resolve(pl, docs, patterns)
    case Found(ms) => Written(Frame(ms))
    case Missing(f) => NotFound(f)
  }

  /** What is written for the blob: the blob itself without selectors, the selection otherwise. */
  function Emit(pl: Platform, blob: string, docs: seq<string>, patterns: seq<string>): (e: Emission)
    ensures patterns == [] ==> e == Written(blob)
  {
    if patterns == [] then Written(blob) else Selected(pl, docs, patterns)
  }

  /** The inner loop for one selector: the documents it matches, and whether there were none. */
  method MatchSelector(pl: Platform, docs: seq<string>, f: string) returns (matched: seq<string>, missing: bool)
    ensures matched == MatchesFor(pl, docs, f)
    ensures missing <==> matched == []
  {
    matched := [];
    missing := true;
    for j := 0 to |docs|
      invariant matched == MatchesFor(pl, docs[..j], f)
      invariant missing <==> matched == []
    {
      var manifest := docs[j];
      assert docs[..j + 1] == docs[..j] + [manifest];
      Seqs.FilterAppend((d: string) => Selects(pl, f, d), docs[..j], [manifest]);
      var submatch := SourceHeader.SourceName(manifest);
      if submatch.None? {
        continue;
      }
      var manifestName := submatch.value;
      var manifestPathSplit := Text.Split(manifestName, '/');
      var manifestPath := Text.Join(manifestPathSplit, '/');
      if !Glob.Match(pl.separator, f, manifestPath) {
        continue;
      }
      matched := matched + [manifest];
      missing := false;
    }
    assert docs[..|docs|] == docs;
  }

  /** The write loop: every document framed, in order. */
  method WriteFramed(ms: seq<string>) returns (out: string)
    ensures out == Frame(ms)
  {
    out := "";
    for k := 0 to |ms|
      invariant out == Frame(ms[..k])
    {
      assert ms[..k + 1] == ms[..k] + [ms[k]];
      Seqs.ConcatMapAppend(FrameDoc, ms[..k], [ms[k]]);
      out := out + "---\n" + ms[k] + "\n";
    }
    assert ms[..|ms|] == ms;
  }

  /** The selection branch: selectors in order, aborting at the first one that matches nothing. */
  method ShowOnly(pl: Platform, docs: seq<string>, showFiles: seq<string>) returns (e: Emission)
    ensures e == Selected(pl, docs, showFiles)
  {
    var toRender: seq<string> := [];
    for i := 0 to |showFiles|
      invariant Resolve(pl, docs, showFiles[..i]) == Found(toRender)
    {
      var f := Text.ToSlash(showFiles[i], pl.separator);
      var matched, missing := MatchSelector(pl, docs, f);
      assert showFiles[..i + 1] == showFiles[..i] + [showFiles[i]];
      ResolveAppend(pl, docs, showFiles[..i], showFiles[i]);
      if missing {
        assert showFiles == showFiles[..i + 1] + showFiles[i + 1..];
        ResolveFailFast(pl, docs, showFiles[..i + 1], showFiles[i + 1..]);
        return NotFound(f);
      }
      toRender := toRender + matched;
    }
    assert showFiles[..|showFiles|] == showFiles;
    var out := WriteFramed(toRender);
    return Written(out);
  }

  /** One more selector: a failure stays, a success grows by the new selector's matches or fails on it. */
  lemma {:induction false} ResolveAppend(pl: Platform, docs: seq<string>, patterns: seq<string>, p: string)
    ensures Resolve(pl, docs, patterns + [p]) ==
            match Resolve(pl, docs, patterns)
            case Missing(f) => Missing(f)
            case Found(ms) =>
              var m := MatchesFor(pl, docs, Normalize(pl, p));
              if m == [] then Missing(Normalize(pl, p)) else Found(ms + m)
  {
    if patterns == [] {
      assert [] + [p] == [p];
      assert [p][1..] == [];
    } else {
      assert (patterns + [p])[0] == patterns[0];
      assert (patterns + [p])[1..] == patterns[1..] + [p];
      ResolveAppend(pl, docs, patterns[1..], p);
    }
  }

  /** Fail-fast: once a selector is missing, selectors after it change nothing. */
  lemma {:induction false} ResolveFailFast(pl: Platform, docs: seq<string>, patterns: seq<string>, later: seq<string>)
    requires Resolve(pl, docs, patterns).Missing?
    ensures Resolve(pl, docs, patterns + later) == Resolve(pl, docs, patterns)
  {
    var f := Normalize(pl, patterns[0]);
    assert (patterns + later)[0] == patterns[0];
    if MatchesFor(pl, docs, f) != [] {
      assert (patterns + later)[1..] == patterns[1..] + later;
      ResolveFailFast(pl, docs, patterns[1..], later);
    }
  }

  /** The compared path is the header's in-chart name itself: splitting and rejoining on '/' changes nothing. */
  lemma SelectsSpec(pl: Platform, pattern: string, doc: string)
    ensures Selects(pl, pattern, doc) <==>
            SourceHeader.SourceName(doc).Some? && Glob.Match(pl.separator, pattern, SourceHeader.SourceName(doc).value)
  {
    if SourceHeader.SourceName(doc).Some? {
      Text.JoinSplit(SourceHeader.SourceName(doc).value, '/');
    }
  }

  /** A selector without wildcards selects exactly the documents whose in-chart name equals it. */
  lemma LiteralSelectorSelectsEqualName(pl: Platform, pattern: string, doc: string)
    requires Glob.IsLiteral(pattern)
    ensures Selects(pl, pattern, doc) <==> SourceHeader.SourceName(doc) == Some(pattern)
  {
    SelectsSpec(pl, pattern, doc);
    if SourceHeader.SourceName(doc).Some? {
      Glob.LiteralMatchesOnlyItself(pl.separator, pattern, SourceHeader.SourceName(doc).value);
    }
  }

  /** A document without a source header is never selected and never emitted. */
  lemma HeaderlessNeverSelected(pl: Platform, docs: seq<string>, patterns: seq<string>, doc: string)
    requires SourceHeader.SourceName(doc).None?
    ensures forall p :: !Selects(pl, p, doc)
    ensures Resolve(pl, docs, patterns).Found? ==> doc !in Resolve(pl, docs, patterns).docs
  {
    if Resolve(pl, docs, patterns).Found? {
      ResolveFound(pl, docs, patterns);
      AllMatchesSelected(pl, docs, patterns);
    }
  }

  /** Every document in the matches of all selectors is selected by one of them and comes from the input. */
  lemma AllMatchesSelected(pl: Platform, docs: seq<string>, patterns: seq<string>)
    ensures forall d :: d in AllMatches(pl, docs, patterns) ==>
              d in docs && exists i :: 0 <= i < |patterns| && Selects(pl, Normalize(pl, patterns[i]), d)
  {
    forall d | d in AllMatches(pl, docs, patterns)
      ensures d in docs && exists i :: 0 <= i < |patterns| && Selects(pl, Normalize(pl, patterns[i]), d)
    {
      var g := (p: string) => MatchesFor(pl, docs, Normalize(pl, p));
      Seqs.ConcatMapMember(g, patterns, d);
      var i :| 0 <= i < |patterns| && d in g(patterns[i]);
      assert d in MatchesFor(pl, docs, Normalize(pl, patterns[i]));
    }
  }

  /** Dropping the header-less documents beforehand changes no selection outcome. */
  lemma {:induction false} ResolveIgnoresHeaderless(pl: Platform, docs: seq<string>, patterns: seq<string>)
    ensures Resolve(pl, Seqs.Filter((d: string) => SourceHeader.SourceName(d).Some?, docs), patterns)
         == Resolve(pl, docs, patterns)
  {
    var headed := Seqs.Filter((d: string) => SourceHeader.SourceName(d).Some?, docs);
    if patterns != [] {
      var f := Normalize(pl, patterns[0]);
      Seqs.FilterImplied((d: string) => Selects(pl, f, d), (d: string) => SourceHeader.SourceName(d).Some?, docs);
      assert MatchesFor(pl, headed, f) == MatchesFor(pl, docs, f);
      ResolveIgnoresHeaderless(pl, docs, patterns[1..]);
    }
  }
}

=== FILE: seqs.dfy ===
/**
 Order-preserving filtering and concatenation over sequences. The hook filter,
 the selector's per-pattern match list, and the text framing of hooks and of
 emitted documents are all instances of these two shapes.
 */
module Seqs {

  /** `a` is `b` with some elements removed, the rest left in their order. */
  ghost predicate IsSubsequence<T>(a: seq<T>, b: seq<T>)
    decreases |b|
  {
    if a == [] then true
    else if b == [] then false
    else (a[0] == b[0] && IsSubsequence(a[1..], b[1..])) || IsSubsequence(a, b[1..])
  }

  /** The elements of `s` that satisfy `keep`, in their original order. */
  function Filter<T(!new)>(keep: T -> bool, s: seq<T>): (r: seq<T>)
    ensures |r| <= |s|
    ensures forall x :: x in r <==> x in s && keep(x)
    ensures IsSubsequence(r, s)
  {
    if s == [] then []
    else
      assert s == [s[0]] + s[1..];
      var rest := Filter(keep, s[1..]);
      if keep(s[0]) then
        assert ([s[0]] + rest)[1..] == rest;
        [s[0]] + rest
      else rest
  }

  /** Each kept value occurs in the result as often as in the input; dropped values not at all. */
  lemma {:induction false} FilterCounts<T(!new)>(keep: T -> bool, s: seq<T>)
    ensures forall x :: multiset(Filter(keep, s))[x] == if keep(x) then multiset(s)[x] else 0
  {
    if s != [] {
      FilterCounts(keep, s[1..]);
      assert s == [s[0]] + s[1..];
    }
  }

  /** Filtering distributes over concatenation, so it keeps relative order. */
  lemma {:induction false} FilterAppend<T(!new)>(keep: T -> bool, a: seq<T>, b: seq<T>)
    ensures Filter(keep, a + b) == Filter(keep, a) + Filter(keep, b)
  {
    if a == [] {
      assert a + b == b;
    } else {
      assert (a + b)[0] == a[0];
      assert (a + b)[1..] == a[1..] + b;
      FilterAppend(keep, a[1..], b);
    }
  }

  /** A filter that keeps everything is the identity. */
  lemma {:induction false} FilterKeepsAll<T(!new)>(keep: T -> bool, s: seq<T>)
    requires forall i :: 0 <= i < |s| ==> keep(s[i])
    ensures Filter(keep, s) == s
  {
    if s != [] {
      FilterKeepsAll(keep, s[1..]);
    }
  }

  /** A filter that keeps nothing of `s` yields the empty sequence. */
  lemma {:induction false} FilterKeepsNone<T(!new)>(keep: T -> bool, s: seq<T>)
    requires forall i :: 0 <= i < |s| ==> !keep(s[i])
    ensures Filter(keep, s) == []
  {
    if s != [] {
      FilterKeepsNone(keep, s[1..]);
    }
  }

  /** A filter whose predicate implies a second one may skip filtering by the second first. */
  lemma {:induction false} FilterImplied<T(!new)>(keep: T -> bool, pre: T -> bool, s: seq<T>)
    requires forall x :: keep(x) ==> pre(x)
    ensures Filter(keep, Filter(pre, s)) == Filter(keep, s)
  {
    if s != [] {
      FilterImplied(keep, pre, s[1..]);
    }
  }

  /** Filtering twice with the same predicate is filtering once. */
  lemma {:induction false} FilterIdempotent<T(!new)>(keep: T -> bool, s: seq<T>)
    ensures Filter(keep, Filter(keep, s)) == Filter(keep, s)
  {
    var r := Filter(keep, s);
    forall i | 0 <= i < |r|
      ensures keep(r[i])
    {
      assert r[i] in r;
    }
    FilterKeepsAll(keep, r);
  }

  /** The concatenation of `f(x)` over the elements `x` of `s`, in order. */
  function ConcatMap<T, U>(f: T -> seq<U>, s: seq<T>): (r: seq<U>)
    ensures s == [] ==> r == []
    ensures |s| == 1 ==> r == f(s[0])
  {
    if s == [] then [] else f(s[0]) + ConcatMap(f, s[1..])
  }

  /** Every element of a concatenation comes from the piece of some element of `s`. */
  lemma {:induction false} ConcatMapMember<T, U>(f: T -> seq<U>, s: seq<T>, x: U)
    requires x in ConcatMap(f, s)
    ensures exists i :: 0 <= i < |s| && x in f(s[i])
  {
    if x !in f(s[0]) {
      ConcatMapMember(f, s[1..], x);
      var i :| 0 <= i < |s[1..]| && x in f(s[1..][i]);
      assert s[1..][i] == s[i + 1];
    }
  }

  /** The concatenation of a concatenation is the concatenation of its parts. */
  lemma {:induction false} ConcatMapAppend<T, U>(f: T -> seq<U>, a: seq<T>, b: seq<T>)
    ensures ConcatMap(f, a + b) == ConcatMap(f, a) + ConcatMap(f, b)
  {
    if a == [] {
      assert a + b == b;
    } else {
      assert (a + b)[0] == a[0];
      assert (a + b)[1..] == a[1..] + b;
      ConcatMapAppend(f, a[1..], b);
    }
  }

  /** Every piece appears in the concatenation at the offset given by the pieces before it. */
  lemma {:induction false} ConcatMapPiece<T, U>(f: T -> seq<U>, s: seq<T>, k: nat)
    requires k < |s|
    ensures var o := |ConcatMap(f, s[..k])|;
            o + |f(s[k])| <= |ConcatMap(f, s)| && ConcatMap(f, s)[o..o + |f(s[k])|] == f(s[k])
  {
    assert s == s[..k] + [s[k]] + s[k + 1..];
    ConcatMapAppend(f, s[..k] + [s[k]], s[k + 1..]);
    ConcatMapAppend(f, s[..k], [s[k]]);
    assert ConcatMap(f, [s[k]]) == f(s[k]);
  }
}

=== FILE: source_header.dfy ===
/**
 Extraction of a document's in-chart name from its `# Source: <chart>/<name>`
 header (main.go, the regular expression `# Source: [^/]+/(.+)` and its first
 submatch).

 Go compiles the expression with Perl flags: the class `[^/]` also matches a
 newline, while `.` matches anything but a newline. The leftmost position
 where the whole expression matches wins; the greedy `[^/]+` then ends at the
 first '/' after the prefix, and the greedy `(.+)` runs to the end of that line.
 */
module SourceHeader {
  import opened Optional
  import Text

  const SourcePrefix: string := "# Source: "

  /**
   The expression matches `doc` starting at offset `p`, with `chart` as the part
   `[^/]+` consumes and `name` as the captured group. The captured group is
   maximal: it is followed by a newline or by the end of the document.
   */
  ghost predicate HeaderAt(doc: string, p: nat, chart: string, name: string)
  {
    var s := p + |SourcePrefix|;
    var q := s + |chart|;
    var e := q + 1 + |name|;
    && e <= |doc|
    && doc[p..s] == SourcePrefix
    && |chart| > 0 && '/' !in chart && doc[s..q] == chart
    && doc[q] == '/'
    && |name| > 0 && '\n' !in name && doc[q + 1..e] == name
    && (e == |doc| || doc[e] == '\n')
  }

  /** No match of the expression starts before offset `p`. */
  ghost predicate NoHeaderBefore(doc: string, p: nat)
  {
    forall p': nat, chart, name :: p' < p ==> !HeaderAt(doc, p', chart, name)
  }

  /** The expression anchored at offset `p`: the captured name, or None. */
  function MatchAt(doc: string, p: nat): (r: Option<string>)
    requires p <= |doc|
    ensures r.Some? ==> |r.value| > 0 && '\n' !in r.value
  {
    var s := p + |SourcePrefix|;
    if s > |doc| || doc[p..s] != SourcePrefix then None
    else
      var q := Text.IndexFrom(doc, '/', s);
      if q == s || q == |doc| then None
      else
        var e := Text.IndexFrom(doc, '\n', q + 1);
        if e == q + 1 then None else Some(doc[q + 1..e])
  }

  /** Tries every start offset from `p` on, leftmost first. */
  function MatchFrom(doc: string, p: nat): (r: Option<string>)
    requires p <= |doc|
    ensures r.Some? ==> |r.value| > 0 && '\n' !in r.value
    decreases |doc| - p
  {
    var m := MatchAt(doc, p);
    if m.Some? || p == |doc| then m else MatchFrom(doc, p + 1)
  }

  /** FindStringSubmatch's group 1: the in-chart name of the document, or None without a header. */
  function SourceName(doc: string): (r: Option<string>)
    ensures r.Some? ==> |r.value| > 0 && '\n' !in r.value
  {
    MatchFrom(doc, 0)
  }

  /** An anchored match found by MatchAt is a match of the expression. */
  lemma MatchAtSound(doc: string, p: nat)
    requires p <= |doc|
    requires MatchAt(doc, p).Some?
    ensures exists chart :: HeaderAt(doc, p, chart, MatchAt(doc, p).value)
  {
    var s := p + |SourcePrefix|;
    var q := Text.IndexFrom(doc, '/', s);
    var chart := doc[s..q];
    assert '/' !in chart by {
      forall i | 0 <= i < |chart| ensures chart[i] != '/' {
        assert chart[i] == doc[s + i];
      }
    }
    var name := MatchAt(doc, p).value;
    assert '\n' !in name by {
      forall i | 0 <= i < |name| ensures name[i] != '\n' {
        assert name[i] == doc[q + 1 + i];
      }
    }
    assert HeaderAt(doc, p, chart, name);
  }

  /** Every match of the expression at offset `p` is the one MatchAt finds. */
  lemma MatchAtComplete(doc: string, p: nat, chart: string, name: string)
    requires HeaderAt(doc, p, chart, name)
    ensures MatchAt(doc, p) == Some(name)
  {
    var s := p + |SourcePrefix|;
    var q := s + |chart|;
    var e := q + 1 + |name|;
    forall i | s <= i < q ensures doc[i] != '/' {
      assert doc[i] == chart[i - s];
    }
    assert Text.IndexFrom(doc, '/', s) == q;
    forall i | q + 1 <= i < e ensures doc[i] != '\n' {
      assert doc[i] == name[i - q - 1];
    }
    assert Text.IndexFrom(doc, '\n', q + 1) == e;
  }

  /** Scanning from `p` finds a name exactly when a leftmost match at or after `p` captures it. */
  lemma {:induction false} MatchFromSpec(doc: string, p: nat, name: string)
    requires p <= |doc|
    requires NoHeaderBefore(doc, p)
    ensures MatchFrom(doc, p) == Some(name) <==>
            exists p': nat, chart :: p <= p' && HeaderAt(doc, p', chart, name) && NoHeaderBefore(doc, p')
    ensures MatchFrom(doc, p).None? <==> forall p': nat, chart, n :: !HeaderAt(doc, p', chart, n)
    decreases |doc| - p
  {
    var m := MatchAt(doc, p);
    if m.Some? {
      MatchAtSound(doc, p);
      var chart :| HeaderAt(doc, p, chart, m.value);
      if m.value != name {
        forall p': nat, chart' | p <= p' && HeaderAt(doc, p', chart', name) && NoHeaderBefore(doc, p')
          ensures false
        {
          if p' == p {
            MatchAtComplete(doc, p, chart', name);
          }
        }
      }
    } else {
      forall chart, n ensures !HeaderAt(doc, p, chart, n) {
        if HeaderAt(doc, p, chart, n) {
          MatchAtComplete(doc, p, chart, n);
        }
      }
      if p == |doc| {
        forall p': nat, chart, n ensures !HeaderAt(doc, p', chart, n) {
          if p' < p {
          } else if p' > p {
            assert p' + |SourcePrefix| > |doc|;
          }
        }
      } else {
        assert NoHeaderBefore(doc, p + 1);
        MatchFromSpec(doc, p + 1, name);
      }
    }
  }

  /**
   SourceName returns `name` exactly when the leftmost match of the header
   expression captures `name`, and None exactly when the expression matches
   nowhere in the document.
   */
  lemma SourceNameSpec(doc: string, name: string)
    ensures SourceName(doc) == Some(name) <==>
            exists p: nat, chart :: HeaderAt(doc, p, chart, name) && NoHeaderBefore(doc, p)
    ensures SourceName(doc).None? <==> forall p: nat, chart, n :: !HeaderAt(doc, p, chart, n)
  {
    MatchFromSpec(doc, 0, name);
  }

  /** The extracted name is a piece of the document itself. */
  lemma SourceNameInfix(doc: string)
    requires SourceName(doc).Some?
    ensures Text.IsInfix(SourceName(doc).value, doc)
  {
    var name := SourceName(doc).value;
    SourceNameSpec(doc, name);
    var p: nat, chart :| HeaderAt(doc, p, chart, name) && NoHeaderBefore(doc, p);
    var k := p + |SourcePrefix| + |chart| + 1;
    assert Text.InfixAt(name, doc, k);
  }

  /**
   A document that opens with the line `# Source: <chart>/<name>` (chart
   non-empty without '/', name non-empty) yields `name`.
   */
  lemma SourceNameOfHeaderLine(chart: string, name: string, rest: string)
    requires |chart| > 0 && '/' !in chart
    requires |name| > 0 && '\n' !in name
    requires rest == [] || rest[0] == '\n'
    ensures SourceName(SourcePrefix + chart + "/" + name + rest) == Some(name)
  {
    var doc := SourcePrefix + chart + "/" + name + rest;
    var s := |SourcePrefix|;
    var q := s + |chart|;
    assert doc[0..s] == SourcePrefix;
    assert doc[s..q] == chart;
    assert doc[q + 1..q + 1 + |name|] == name;
    assert HeaderAt(doc, 0, chart, name);
    MatchAtComplete(doc, 0, chart, name);
  }
}

=== FILE: text.dfy ===
/**
 The string helpers the pipeline takes from Go's standard library: whitespace
 trimming, splitting and joining on one separator character, and the
 platform separator conversion of path/filepath. Strings are sequences of
 Unicode code points.
 */
module Text {

  /** Go's unicode.IsSpace: the Latin-1 spaces plus the rest of Unicode's White_Space. */
  predicate IsSpace(c: char) {
    || '\t' <= c <= '\r'
    || c == ' ' || c == '\U{85}' || c == '\U{A0}' || c == '\U{1680}'
    || '\U{2000}' <= c <= '\U{200A}'
    || c == '\U{2028}' || c == '\U{2029}' || c == '\U{202F}' || c == '\U{205F}' || c == '\U{3000}'
  }

  ghost predicate AllSpace(s: string) {
    forall i :: 0 <= i < |s| ==> IsSpace(s[i])
  }

  /** The number of leading whitespace code points of `s`. */
  function LeadingSpace(s: string): (n: nat)
    ensures n <= |s|
    ensures AllSpace(s[..n])
    ensures n < |s| ==> !IsSpace(s[n])
  {
    if s == [] || !IsSpace(s[0]) then 0 else 1 + LeadingSpace(s[1..])
  }

  /** The length of `s` once its trailing whitespace is dropped. */
  function TrailingStart(s: string): (n: nat)
    ensures n <= |s|
    ensures AllSpace(s[n..])
    ensures 0 < n ==> !IsSpace(s[n - 1])
  {
    if s == [] || !IsSpace(s[|s| - 1]) then |s| else TrailingStart(s[..|s| - 1])
  }

  /** Go's strings.TrimSpace: `s` without its leading and trailing whitespace. */
  function TrimSpace(s: string): (r: string)
    ensures exists i, j :: 0 <= i <= j <= |s| && r == s[i..j] && AllSpace(s[..i]) && AllSpace(s[j..])
    ensures r == [] || (!IsSpace(r[0]) && !IsSpace(r[|r| - 1]))
  {
    var i := LeadingSpace(s);
    var j := i + TrailingStart(s[i..]);
    assert s[i..][..j - i] == s[i..j];
    assert s[i..][j - i..] == s[j..];
    s[i..j]
  }

  /** Trimming a trimmed string changes nothing. */
  lemma TrimSpaceIdempotent(s: string)
    ensures TrimSpace(TrimSpace(s)) == TrimSpace(s)
  {
    var r := TrimSpace(s);
    if r != [] {
      assert LeadingSpace(r) == 0;
      assert r[0..] == r;
      assert TrailingStart(r) == |r|;
    }
  }

  /** `a` occurs in `b` starting at offset `k`. */
  predicate InfixAt(a: string, b: string, k: int)
  {
    0 <= k && k + |a| <= |b| && b[k..k + |a|] == a
  }

  /** `a` occurs in `b` as a contiguous piece. */
  ghost predicate IsInfix(a: string, b: string)
  {
    exists k :: InfixAt(a, b, k)
  }

  /** A character missing from the whole is missing from each of its pieces. */
  lemma InfixLacksChar(a: string, b: string, c: char)
    requires IsInfix(a, b) && c !in b
    ensures c !in a
  {
    var k :| InfixAt(a, b, k);
    forall i | 0 <= i < |a| ensures a[i] != c {
      assert a[i] == b[k..k + |a|][i] == b[k + i];
    }
  }

  /** The first index at or after `from` holding `c`, or `|s|` when there is none. */
  function IndexFrom(s: string, c: char, from: nat): (k: nat)
    requires from <= |s|
    ensures from <= k <= |s|
    ensures k < |s| ==> s[k] == c
    ensures forall i :: from <= i < k ==> s[i] != c
    decreases |s| - from
  {
    if from == |s| || s[from] == c then from else IndexFrom(s, c, from + 1)
  }

  /** Go's strings.Split with a one-character separator: never empty, "" gives [""]. */
  function Split(s: string, c: char): (parts: seq<string>)
    ensures |parts| >= 1
    ensures forall k :: 0 <= k < |parts| ==> c !in parts[k]
    decreases |s|
  {
    var i := IndexFrom(s, c, 0);
    if i == |s| then [s] else [s[..i]] + Split(s[i + 1..], c)
  }

  /** Go's strings.Join with a one-character separator. */
  function Join(parts: seq<string>, c: char): (s: string)
    ensures |parts| > 1 ==> |parts[0]| < |s| && s[|parts[0]|] == c
  {
    if parts == [] then ""
    else if |parts| == 1 then parts[0]
    else parts[0] + [c] + Join(parts[1..], c)
  }

  /** Splitting on a character and joining with the same character gives back the input. */
  lemma {:induction false} JoinSplit(s: string, c: char)
    ensures Join(Split(s, c), c) == s
    decreases |s|
  {
    var i := IndexFrom(s, c, 0);
    if i < |s| {
      var rest := s[i + 1..];
      JoinSplit(rest, c);
      assert s == s[..i] + [c] + rest;
    }
  }

  /** Joining pieces without the separator and splitting again recovers the pieces. */
  lemma {:induction false} SplitJoin(parts: seq<string>, c: char)
    requires |parts| >= 1
    requires forall k :: 0 <= k < |parts| ==> c !in parts[k]
    ensures Split(Join(parts, c), c) == parts
    decreases |parts|
  {
    var s := Join(parts, c);
    if |parts| == 1 {
      assert IndexFrom(s, c, 0) == |s|;
    } else {
      SplitJoin(parts[1..], c);
      var p := parts[0];
      assert s == p + [c] + Join(parts[1..], c);
      assert s[|p|] == c;
      assert forall i :: 0 <= i < |p| ==> s[i] == p[i] && s[i] != c;
      assert IndexFrom(s, c, 0) == |p|;
      assert s[..|p|] == p;
      assert s[|p| + 1..] == Join(parts[1..], c);
    }
  }

  /** Every occurrence of `sep` replaced by '/'. */
  function ReplaceWithSlash(s: string, sep: char): (r: string)
    ensures |r| == |s|
    ensures forall i :: 0 <= i < |s| ==> r[i] == if s[i] == sep then '/' else s[i]
  {
    if s == [] then [] else [if s[0] == sep then '/' else s[0]] + ReplaceWithSlash(s[1..], sep)
  }

  /**
   Go's filepath.ToSlash on a platform whose separator is `sep`: the identity
   where the separator already is '/', otherwise every `sep` becomes '/'.
   */
  function ToSlash(s: string, sep: char): (r: string)
    ensures |r| == |s|
  {
    if sep == '/' then s else ReplaceWithSlash(s, sep)
  }

  /** ToSlash leaves no platform separator behind, changes nothing else, and is idempotent. */
  lemma ToSlashNormalizes(s: string, sep: char)
    ensures |ToSlash(s, sep)| == |s|
    ensures forall i :: 0 <= i < |s| && s[i] != sep ==> ToSlash(s, sep)[i] == s[i]
    ensures forall i :: 0 <= i < |s| && s[i] == sep ==> ToSlash(s, sep)[i] == '/'
    ensures sep != '/' ==> sep !in ToSlash(s, sep)
    ensures ToSlash(ToSlash(s, sep), sep) == ToSlash(s, sep)
  {
  }
}
